=== FILE: README.md ===
# Cinema seat booking — a Dafny model

This project models the seat-booking component of a React movie-ticket app
(`src/Components/CinemaSeatBooking.jsx`). The component lays out a grid of
seats grouped into price tiers. It lets the user toggle seats, adds up the
price of the selection, and commits a booking that turns the selected seats
into booked ones. The model treats each handler as a pure transition on the
pair (grid, selection list) and proves what these transitions keep true.

Modules, in the order the component uses them:

- `JsString`: JavaScript strings as UTF-16 code units, `String.fromCharCode`
  (a value modulo 2^16), and the decimal form of a number with its inverse.
- `Seats`: the data model. It holds `Seat`, `Grid`, `Layout` and `State`,
  plus the row-major flattening (`seats.flat()`), the selection list
  recomputed from the grid, the available count, and the state invariant
  `Valid`.
- `Tiers`: `getSeatType`, where the first tier that lists the row wins and the
  colour is the tier's position modulo 8.
- `GridInit`: `initializeSeats`, with seat ids, price and type fallbacks, and
  pre-booked seats.
- `Selection`: `handleSeatClick`.
- `Booking`: `handleBooking`.
- `Summary`: the total-price reduce (once as a declarative function, once as
  the nested scan the source performs) and `getVehicle`.
- `Aisle`: the split of each row into two blocks by `Array.prototype.slice`,
  and the column index each seat button passes to the click handler.
- `Session`: mounting, and runs of arbitrary click and "Book Now" events.

Modelling choices:

- The layout props keep their meaning but not their spelling. The source's
  `rows`, `seatperrow` and `aiselePosition` become the fields `rows`,
  `seatsPerRow` and `aislePosition` of `Layout`. README rows that quote the
  source keep its spelling.
- Strings are sequences of 16-bit code units. `String.fromCharCode(65 + row)`
  wraps modulo 2^16 and can yield code units that are not Unicode scalar
  values.
- An empty tier configuration makes `getSeatType` throw when it destructures
  `entries[0]`. The model returns `None` there. `initializeSeats` therefore
  yields `None` exactly when it has at least one row to resolve and no tiers.
- A tier's price is `Option<int>`, where `None` means the property is absent.
  A falsy price (absent or 0) becomes 150. An empty tier key becomes
  `"regular"`.
- `handleBooking` reads `selectedSeats` from its render closure and the grid
  from the state updater. The model reads both from the state pair.
- The completion callback is not called. Instead, `Commit` returns the
  argument the callback would receive.

Three facts about the code that the model keeps as written:

- The selection list holds the seats that are both selected and available
  (line 122).
- An id in the selection that matches no seat adds 0 to the total
  (line 263). The invariant `Valid` rules this case out.
- Seat state is two independent fields, `status` and `selected`, not a tagged
  enum. The invariant `NoBookedSelected` proves that the combination
  booked-and-selected is never reached.

## Model

| member | source | states |
|---|---|---|
| `JsString.FromCharCode` | src/Components/CinemaSeatBooking.jsx:54 | the row letter is the code unit congruent to 65 + row modulo 2^16, and equals it below 2^16 |
| `JsString.Decimal` | src/Components/CinemaSeatBooking.jsx:54 | the seat number part of an id is a non-empty run of decimal digits with no leading zero |
| `JsString.DecimalRoundTrip` | src/Components/CinemaSeatBooking.jsx:54 | reading the decimal form back gives the number, so the number part of an id determines the column |
| `GridInit.SeatId` | src/Components/CinemaSeatBooking.jsx:54 | an id is the row letter followed by digits; the letter is code unit 65 + row below 2^16, and the digits read back as the column plus one |
| `GridInit.SeatIdInjective` | src/Components/CinemaSeatBooking.jsx:54 | two positions get the same id only if they are the same position, while there are at most 2^16 rows |
| `GridInit.SeatIdWrapsAt65536` | src/Components/CinemaSeatBooking.jsx:54 | the bound is tight: row 65536 reuses the ids of row 0 |
| `Tiers.FirstMatch` | src/Components/CinemaSeatBooking.jsx:33-42 | the found position lists the row and no earlier position does; with no result, no position from the start on lists it |
| `Tiers.GetSeatType` | src/Components/CinemaSeatBooking.jsx:32-45 | the lookup fails exactly on an empty configuration; otherwise it returns the first tier listing the row, coloured by its position modulo 8, or the first tier in the first colour when none lists it |
| `Tiers.GetSeatTypeIsConfigured` | src/Components/CinemaSeatBooking.jsx:32-45 | every successful lookup returns one of the configured tiers with the colour of its own position |
| `GridInit.EffectivePrice` | src/Components/CinemaSeatBooking.jsx:61 | a seat's price is never 0: a non-zero tier price is kept, and an absent or zero price becomes 150 |
| `GridInit.InitializeSeats` | src/Components/CinemaSeatBooking.jsx:47-70 | the build fails exactly when rows must be resolved against no tiers; otherwise there are `rows` rows of `seatperrow` seats, and the seat at (r, c) has id letter(65+r)·(c+1), coordinates (r, c), is unselected, is booked iff its id was pre-booked, and takes its tier, price and colour from the row's tier |
| `GridInit.InitialSeatTier` | src/Components/CinemaSeatBooking.jsx:51-62 | each seat's price and colour come from the first tier listing its row, or from tier 0 with colour 0 when no tier lists it |
| `GridInit.InitialGridValid` | src/Components/CinemaSeatBooking.jsx:47-73 | the mounted state (new grid, empty selection) satisfies the invariant, with distinct ids, whenever there are at most 2^16 rows |
| `Session.Mount` | src/Components/CinemaSeatBooking.jsx:72-73 | mounting succeeds exactly when the grid builds, and the mounted state is valid for up to 2^16 rows |
| `Seats.FlattenMembers` | src/Components/CinemaSeatBooking.jsx:290 | `seats.flat()` holds exactly the seats at grid positions |
| `Seats.FlattenDistinct` | src/Components/CinemaSeatBooking.jsx:290 | ids distinct across grid positions remain distinct in the flattened list |
| `Seats.PickedIds` | src/Components/CinemaSeatBooking.jsx:119-126 | an id is in the recomputed list iff some selected and available seat carries it |
| `Seats.PickedIdsAppend` | src/Components/CinemaSeatBooking.jsx:119-126 | the recomputation splits over concatenation, so it lists picked ids in row-major order |
| `Seats.PickedIdsNoDuplicates` | src/Components/CinemaSeatBooking.jsx:119-126 | with distinct seat ids the selection list has no duplicates |
| `Seats.SelectedIds` | src/Components/CinemaSeatBooking.jsx:119-127 | an id is in the selection list iff the seat at some grid position is selected, available and carries it |
| `Seats.NothingPicked` | src/Components/CinemaSeatBooking.jsx:119-127 | with no selected available seat, the selection list is empty |
| `Seats.CountAvailableExtremes` | src/Components/CinemaSeatBooking.jsx:290 | the available count equals the number of seats iff every seat is available, and is 0 iff every seat is booked |
| `Seats.AvailableCount` | src/Components/CinemaSeatBooking.jsx:290 | the remaining-available figure is at most the number of seats, equals it iff every seat is available, and is 0 iff every seat is booked |
| `Seats.AvailableCountSameStatus` | src/Components/CinemaSeatBooking.jsx:290 | the remaining-available count depends only on the seats' statuses |
| `Selection.ToggleSeat` | src/Components/CinemaSeatBooking.jsx:110-117 | the grid keeps its shape; only an available clicked seat changes, by negating `selected`; a booked or out-of-grid target changes nothing |
| `Selection.Click` | src/Components/CinemaSeatBooking.jsx:108-130 | after a click the selection list holds exactly the ids of the selected, available seats of the new grid |
| `Selection.ClickKeepsStatus` | src/Components/CinemaSeatBooking.jsx:110-117 | a click changes no seat's id, coordinates, tier, price or status |
| `Selection.ClickTouchesAtMostOne` | src/Components/CinemaSeatBooking.jsx:110-117 | any seat the click changed is the clicked one, and that seat was available |
| `Selection.ClickWithoutEffect` | src/Components/CinemaSeatBooking.jsx:108-130 | clicking a booked seat or a position outside the grid leaves a valid state unchanged |
| `Selection.ToggleTwice` | src/Components/CinemaSeatBooking.jsx:110-117 | toggling the same position twice restores the grid |
| `Selection.ClickTwiceRestores` | src/Components/CinemaSeatBooking.jsx:108-130 | two clicks on the same seat restore a valid state, selection list included |
| `Selection.ClickPreservesValid` | src/Components/CinemaSeatBooking.jsx:108-130 | a click re-establishes the invariant, and the new selection list has no duplicates |
| `Selection.ClickKeepsBooked` | src/Components/CinemaSeatBooking.jsx:112 | a booked seat is still booked after any click |
| `Booking.Commit` | src/Components/CinemaSeatBooking.jsx:156-170 | with an empty selection nothing changes and no callback happens; otherwise the callback gets the selection list unchanged, the listed seats become booked and unselected, all other seats stay as they were, and the selection empties |
| `Booking.CommitKeepsBooked` | src/Components/CinemaSeatBooking.jsx:161-169 | a booked seat is still booked after a commit |
| `Booking.CommittedSeatsBooked` | src/Components/CinemaSeatBooking.jsx:158-169 | every seat whose id was passed to the callback is booked afterwards |
| `Booking.CommitPreservesValid` | src/Components/CinemaSeatBooking.jsx:161-170 | a commit from a valid state leaves a valid state (nothing picked, empty list) |
| `Booking.CommitReducesAvailable` | src/Components/CinemaSeatBooking.jsx:156-170 | from a valid state, a commit lowers the remaining-available count by exactly the selection length |
| `Summary.FindSeat` | src/Components/CinemaSeatBooking.jsx:256-262 | the search yields the first seat in row-major order with the id, and nothing iff no seat has it |
| `Summary.PriceOf` | src/Components/CinemaSeatBooking.jsx:256-263 | one reduce step adds the price of the first seat in row-major order with the id, or 0 when no seat has it |
| `Summary.PriceAtPosition` | src/Components/CinemaSeatBooking.jsx:256-263 | with distinct ids, the id of the seat at a position is priced at that seat's price |
| `Summary.TotalPrice` | src/Components/CinemaSeatBooking.jsx:255-264 | the reduce starts from 0, so an empty selection totals 0; with non-negative seat prices the total is never negative |
| `Summary.TotalPriceAppend` | src/Components/CinemaSeatBooking.jsx:255-264 | the total over two lists together is the sum of their totals |
| `Summary.PriceOfSeat` | src/Components/CinemaSeatBooking.jsx:255-264 | with distinct ids, each seat's id is priced at that seat's own price |
| `Summary.TotalOfSelection` | src/Components/CinemaSeatBooking.jsx:255-264 | in a valid state the total price is the price sum of the selected available seats |
| `Summary.ScanPrice` | src/Components/CinemaSeatBooking.jsx:256-263 | the nested row and seat scan with early return yields the price of the first seat with the id, or 0 |
| `Summary.ScanTotal` | src/Components/CinemaSeatBooking.jsx:255-264 | the reduce from 0 over the selection list computes the declarative total |
| `Summary.GetVehicle` | src/Components/CinemaSeatBooking.jsx:177-184 | the label is the smallest vehicle that fits the party (Cycle 1, Bike 2, Auto 3, Car 4, Bus any), and there is no vehicle iff the count is 0 or less |
| `Summary.GetVehicleMonotonic` | src/Components/CinemaSeatBooking.jsx:177-184 | a larger party never gets a smaller vehicle |
| `Aisle.RelativeIndex` | src/Components/CinemaSeatBooking.jsx:134 | a slice bound is clamped to the row; a negative bound counts from the end |
| `Aisle.Slice` | src/Components/CinemaSeatBooking.jsx:134 | `slice` with bounds in range is the plain subsequence; for any bounds it is the run from the relative start index up to the relative end index, empty when the end is not past the start |
| `Aisle.Section` | src/Components/CinemaSeatBooking.jsx:132-146 | `renderSeatSection` as written draws the sliced seats, and button `index` passes column `start + index` and shows `start + index + 1`, whatever the slice really started at |
| `Aisle.RenderRow` | src/Components/CinemaSeatBooking.jsx:207-210 | a row is drawn as at most its own seats, each button showing a seat of that row |
| `Aisle.RenderRowShowsEachSeatOnce` | src/Components/CinemaSeatBooking.jsx:207-210 | the two blocks together draw every seat of the row once and in order, for any aisle position |
| `Aisle.ColumnsMatchSeats` | src/Components/CinemaSeatBooking.jsx:132-146 | with a non-negative aisle position, each button passes and shows its own seat's column |
| `Aisle.NegativeAisleStrandsLastSeat` | src/Components/CinemaSeatBooking.jsx:140 | with the aisle at -k, where 0 < k <= seats per row, the last seat of a row passes column -1, and clicking it changes nothing |
| `Aisle.NegativeAisleStrandsRightBlock` | src/Components/CinemaSeatBooking.jsx:134-140 | for every negative aisle position, each button of the right block passes a negative column, and clicking it changes nothing |
| `Aisle.FixedShowsEachSeatOnce` | src/Components/CinemaSeatBooking.jsx:132-146 | the corrected blocks draw the same seats as the original |
| `Aisle.FixedAgreesOnNonNegativeAisle` | src/Components/CinemaSeatBooking.jsx:132-146 | the correction changes nothing where the original is right |
| `Aisle.FixedColumnsMatchSeats` | src/Components/CinemaSeatBooking.jsx:132-146 | with the correction, every button passes its own seat's column for every aisle position |
| `Session.StepPreservesValid` | src/Components/CinemaSeatBooking.jsx:108-170 | each event handler keeps the invariant and the grid shape |
| `Session.RunPreservesValid` | src/Components/CinemaSeatBooking.jsx:108-170 | every reachable state is valid: the selection list is the picked seats in row-major order, with no duplicates |
| `Session.RunKeepsBooked` | src/Components/CinemaSeatBooking.jsx:112-165 | a booked seat stays booked through any sequence of clicks and commits |
| `Session.RunAvailableAccounting` | src/Components/CinemaSeatBooking.jsx:156-170 | over any run, the available count falls by exactly the number of ids passed to the callback |
| `Session.DefaultTwoRegularOneVip` | src/Components/CinemaSeatBooking.jsx:10-14 | with the default tiers, seats A1, A2 and G1 have tier keys regular, regular and vip, prices 150, 150 and 350, and total 650 |

## Left out

- React machinery (`useState`, `useMemo`, the `setSeats` updater closures) is
  left out. The handlers are modelled as pure transitions on (grid,
  selection).
- The confirmation modal and its message (lines 159-160 and 283-301) are left
  out. Only the remaining-available figure from that modal is modelled, as
  `AvailableCount`.
- The two-second `setTimeout` redirect to the home page (lines 171-174) is left
  out, because it is a timer and a navigation side effect.
- `useParams` and `useNavigate` are left out. They are a routing library, and
  the location and movie parameters are only displayed.
- `src/Components/Home.jsx` and `src/App.jsx` are left out. They are a static
  catalog and route wiring.
- `getColorClass`, `getSeatClassName`, the button tooltip (line 139), the
  currency symbol and the tier legend (lines 150-154, 218-225) are left out,
  because they are presentation only. The vehicle labels are an enum with no
  emoji text.
- The `"blue"` colour fallback (line 62) is not modelled separately. It can
  never apply, because every palette entry is a non-empty string.
- A tier entry holds only `name`, `price` and `rows`. Extra config fields that
  would override `type` or `color` through the object spread are not
  modelled. A missing `rows` array, which would throw, is not modelled
  either.
- The order of tier entries is taken as given. This is the order
  `Object.entries` produces, which puts integer-like keys first.
- Prices and counts are integers. NaN and fractional JavaScript numbers are
  not modelled, nor are non-integer layout values.
- Selection order after two clicks is not modelled separately. The
  selection is always rebuilt in row-major order, and
  `Selection.ClickTwiceRestores` proves the whole state is restored.
- The completion callback `onBookingComplete` (line 158) is not called.
  `Booking.Commit` returns the array it would receive. The source passes the
  state array itself, and the `setSeats` updater reads that same array at
  line 164. So `Booking.Commit`, `Booking.CommitReducesAvailable` and
  `Session.RunAvailableAccounting` assume the callback returns normally and
  leaves its argument unchanged. A callback that throws would leave nothing
  booked. A callback that mutates the array would change which seats get
  booked. In this app the default callback (line 17) does nothing, and
  `src/App.jsx` passes none.

## Findings

| source | as written | input that shows it | evidently intended | confidence | as-written member | corrected member |
|---|---|---|---|---|---|---|
| src/Components/CinemaSeatBooking.jsx:140 | the button passes column `StartIndex + index`, where `StartIndex` is the raw aisle position, but `slice` reads a negative start as counting from the end of the row | layout `{rows: 8, seatperrow: 12, aiselePosition: -2}`: the right block draws seats 11 and 12 with columns -2 and -1, so clicking them changes nothing and they can never be selected | each button clicks its own seat, that is the column where the slice really starts plus `index` | not executed; only reachable with a negative aisle position, which the default layout does not use | `Aisle.NegativeAisleStrandsLastSeat` | `Aisle.FixedColumnsMatchSeats` |

=== FILE: aisle.dfy ===
/** The aisle split of a row: the row is drawn as `row.slice(0, aisle)` and
    `row.slice(aisle, seatsPerRow)`, and each button clicks a column index
    computed from the section start. */
module Aisle {

  import opened Seats
  import opened Selection
  import opened GridInit

  /** How `Array.prototype.slice` reads a relative index against a length:
      negative indices count from the end, and both ends are clamped. */
  function RelativeIndex(k: int, len: nat): (i: nat)
    ensures i <= len
    ensures 0 <= k <= len ==> i == k
    ensures k < 0 && 0 <= len + k ==> i == len + k
    ensures len + k < 0 ==> i == 0
    ensures len < k ==> i == len
  {
    if k < 0 then (if len + k < 0 then 0 else len + k)
    else if k < len then k
    else len
  }

  /** `s.slice(start, end)`: the run of elements between the two relative
      indices, empty when they cross. */
  function Slice<T>(s: seq<T>, start: int, end: int): (r: seq<T>)
    ensures 0 <= start <= end <= |s| ==> r == s[start..end]
    ensures RelativeIndex(start, |s|) + |r| <= |s|
    ensures r == s[RelativeIndex(start, |s|)..RelativeIndex(start, |s|) + |r|]
    ensures |r| == if RelativeIndex(start, |s|) < RelativeIndex(end, |s|)
      then RelativeIndex(end, |s|) - RelativeIndex(start, |s|) else 0
  {
    var from, to := RelativeIndex(start, |s|), RelativeIndex(end, |s|);
    if from < to then s[from..to] else []
  }

  /** One seat button: the seat drawn, the column its click handler passes,
      and the number it shows. */
  datatype Button = Button(seat: Seat, column: int, number: int)

  function SeatsOf(bs: seq<Button>): seq<Seat>
  {
    seq(|bs|, i requires 0 <= i < |bs| => bs[i].seat)
  }

  /** `renderSeatSection(row, start, end)` as written: button `index` of the
      slice passes column `start + index` and shows `start + index + 1`. */
  function Section(row: seq<Seat>, start: int, end: int): (bs: seq<Button>)
    ensures SeatsOf(bs) == Slice(row, start, end)
    ensures forall i :: 0 <= i < |bs| ==> bs[i].column == start + i && bs[i].number == start + i + 1
  {
    var part := Slice(row, start, end);
    seq(|part|, i requires 0 <= i < |part| => Button(part[i], start + i, start + i + 1))
  }

  /** The buttons of one row, left block then right block. */
  function RenderRow(row: seq<Seat>, layout: Layout): (bs: seq<Button>)
    ensures |bs| <= |row|
    ensures forall i :: 0 <= i < |bs| ==> bs[i].seat in row
  {
    Section(row, 0, layout.aislePosition) + Section(row, layout.aislePosition, layout.seatsPerRow)
  }

  /** The two blocks together draw every seat of the row once, in order,
      wherever the aisle is. */
  lemma RenderRowShowsEachSeatOnce(row: seq<Seat>, layout: Layout)
    requires |row| == Iterations(layout.seatsPerRow)
    ensures SeatsOf(RenderRow(row, layout)) == row
  {
    var n := |row|;
    var mid := RelativeIndex(layout.aislePosition, n);
    assert RelativeIndex(0, n) == 0 && RelativeIndex(layout.seatsPerRow, n) == n;
    assert Slice(row, 0, layout.aislePosition) == row[..mid];
    assert Slice(row, layout.aislePosition, layout.seatsPerRow) == row[mid..];
    assert row[..mid] + row[mid..] == row;
  }

  /** A block that starts at a non-negative index passes each seat's own column. */
  lemma SectionColumns(row: seq<Seat>, start: int, end: int)
    requires 0 <= start
    requires forall c :: 0 <= c < |row| ==> row[c].seat == c
    ensures forall b :: b in Section(row, start, end) ==> b.column == b.seat.seat && b.number == b.seat.seat + 1
  {
    var bs := Section(row, start, end);
    forall i | 0 <= i < |bs|
      ensures bs[i].column == bs[i].seat.seat && bs[i].number == bs[i].seat.seat + 1
    {
      assert start <= |row|;
      assert bs[i].seat == row[start + i];
    }
  }

  /** With a non-negative aisle position every button clicks, and shows the
      number of, its own seat. */
  lemma ColumnsMatchSeats(row: seq<Seat>, layout: Layout)
    requires 0 <= layout.aislePosition
    requires forall c :: 0 <= c < |row| ==> row[c].seat == c
    ensures forall b :: b in RenderRow(row, layout) ==> b.column == b.seat.seat && b.number == b.seat.seat + 1
  {
    SectionColumns(row, 0, layout.aislePosition);
    SectionColumns(row, layout.aislePosition, layout.seatsPerRow);
  }

  /** With the aisle at -k (0 < k <= seats in the row) the last seat of a row
      is drawn with column -1, and a click on it changes nothing: that seat
      can never be selected. */
  lemma NegativeAisleStrandsLastSeat(st: State, r: int, layout: Layout)
    requires Valid(st)
    requires 0 <= r < |st.grid|
    requires |st.grid[r]| == Iterations(layout.seatsPerRow)
    requires layout.aislePosition < 0 && -layout.aislePosition <= |st.grid[r]|
    ensures var bs := RenderRow(st.grid[r], layout);
      && 0 < |bs|
      && bs[|bs| - 1].seat == st.grid[r][|st.grid[r]| - 1]
      && bs[|bs| - 1].column == -1
      && Click(st, bs[|bs| - 1].seat.row, bs[|bs| - 1].column) == st
  {
    var row := st.grid[r];
    var bs := RenderRow(row, layout);
    RenderRowShowsEachSeatOnce(row, layout);
    assert SeatsOf(bs)[|bs| - 1] == row[|row| - 1];
    ClickWithoutEffect(st, r, -1);
  }

  /** For every negative aisle position, every button of the right block
      passes a negative column, so a click on any of them changes nothing. */
  lemma NegativeAisleStrandsRightBlock(st: State, r: int, layout: Layout)
    requires Valid(st)
    requires 0 <= r < |st.grid|
    requires layout.aislePosition < 0
    ensures forall b :: b in Section(st.grid[r], layout.aislePosition, layout.seatsPerRow) ==>
      b.column < 0 && Click(st, b.seat.row, b.column) == st
  {
    var row := st.grid[r];
    var a := layout.aislePosition;
    var bs := Section(row, a, layout.seatsPerRow);
    var from := RelativeIndex(a, |row|);
    assert |bs| == |SeatsOf(bs)|;
    assert from + |bs| <= |row| && |row| + a <= from;
    forall b | b in bs
      ensures b.column < 0 && Click(st, b.seat.row, b.column) == st
    {
      var i :| 0 <= i < |bs| && bs[i] == b;
      ClickWithoutEffect(st, b.seat.row, b.column);
    }
  }

  /** `renderSeatSection` with the column taken from where the slice really
      starts (equivalently, from the seat's own `seat` field). */
  function SectionFixed(row: seq<Seat>, start: int, end: int): seq<Button>
  {
    var part := Slice(row, start, end);
    var from := RelativeIndex(start, |row|);
    seq(|part|, i requires 0 <= i < |part| => Button(part[i], from + i, from + i + 1))
  }

  function RenderRowFixed(row: seq<Seat>, layout: Layout): seq<Button>
  {
    SectionFixed(row, 0, layout.aislePosition) + SectionFixed(row, layout.aislePosition, layout.seatsPerRow)
  }

  lemma SeatsOfAppend(a: seq<Button>, b: seq<Button>)
    ensures SeatsOf(a + b) == SeatsOf(a) + SeatsOf(b)
  {
  }

  /** A corrected block draws the same slice as the original one. */
  lemma SectionFixedSeats(row: seq<Seat>, start: int, end: int)
    ensures SeatsOf(SectionFixed(row, start, end)) == Slice(row, start, end)
  {
  }

  /** The corrected row draws the same seats as the original. */
  lemma FixedShowsEachSeatOnce(row: seq<Seat>, layout: Layout)
    requires |row| == Iterations(layout.seatsPerRow)
    ensures SeatsOf(RenderRowFixed(row, layout)) == SeatsOf(RenderRow(row, layout)) == row
  {
    var a, e := layout.aislePosition, layout.seatsPerRow;
    SectionFixedSeats(row, 0, a);
    SectionFixedSeats(row, a, e);
    SeatsOfAppend(SectionFixed(row, 0, a), SectionFixed(row, a, e));
    SeatsOfAppend(Section(row, 0, a), Section(row, a, e));
    RenderRowShowsEachSeatOnce(row, layout);
  }

  /** Where the original is right, the correction changes nothing. */
  lemma FixedAgreesOnNonNegativeAisle(row: seq<Seat>, layout: Layout)
    requires 0 <= layout.aislePosition
    ensures RenderRowFixed(row, layout) == RenderRow(row, layout)
  {
    var a := layout.aislePosition;
    if a <= |row| {
      assert SectionFixed(row, a, layout.seatsPerRow) == Section(row, a, layout.seatsPerRow);
    } else {
      assert Slice(row, a, layout.seatsPerRow) == [];
    }
  }

  /** Every button of a corrected block clicks, and shows the number of, its
      own seat. */
  lemma FixedSectionColumns(row: seq<Seat>, start: int, end: int)
    requires forall c :: 0 <= c < |row| ==> row[c].seat == c
    ensures forall b :: b in SectionFixed(row, start, end) ==> b.column == b.seat.seat && b.number == b.seat.seat + 1
  {
    var bs := SectionFixed(row, start, end);
    var from := RelativeIndex(start, |row|);
    forall i | 0 <= i < |bs|
      ensures bs[i].column == bs[i].seat.seat && bs[i].number == bs[i].seat.seat + 1
    {
      assert bs[i].seat == row[from + i];
    }
  }

  /** For every aisle position each corrected button clicks, and shows the
      number of, its own seat. */
  lemma FixedColumnsMatchSeats(row: seq<Seat>, layout: Layout)
    requires forall c :: 0 <= c < |row| ==> row[c].seat == c
    ensures forall b :: b in RenderRowFixed(row, layout) ==> b.column == b.seat.seat && b.number == b.seat.seat + 1
  {
    FixedSectionColumns(row, 0, layout.aislePosition);
    FixedSectionColumns(row, layout.aislePosition, layout.seatsPerRow);
  }

}

=== FILE: booking.dfy ===
/** The booking commit: hand the selection list to the completion callback,
    book every listed seat and clear the selection. */
module Booking {

  import opened JsString
  import opened Optional
  import opened Seats

  /** The state after a commit and the argument the completion callback
      received (`None` when it was not called). */
  datatype Outcome = Outcome(state: State, completed: Option<seq<Str>>)

  function BookSeat(s: Seat, selection: seq<Str>): Seat
  {
    if s.id in selection then s.(status := Booked, selected := false) else s
  }

  function BookRow(row: seq<Seat>, selection: seq<Str>): (booked: seq<Seat>)
    ensures |booked| == |row|
  {
    seq(|row|, c requires 0 <= c < |row| => BookSeat(row[c], selection))
  }

  function BookGrid(g: Grid, selection: seq<Str>): Grid
  {
    seq(|g|, r requires 0 <= r < |g| => BookRow(g[r], selection))
  }

  /** `handleBooking`: a no-op on an empty selection; otherwise the callback
      gets the selection list as it is, each seat whose id is listed becomes
      booked and unselected, all other seats stay as they were, and the
      selection becomes empty. */
  function Commit(st: State): (o: Outcome)
    ensures |st.selection| == 0 ==> o == Outcome(st, None)
    ensures |st.selection| > 0 ==> o.completed == Some(st.selection) && o.state.selection == []
    ensures SameShape(st.grid, o.state.grid)
    ensures forall r, c :: InGrid(st.grid, r, c) ==>
      var before, after := st.grid[r][c], o.state.grid[r][c];
      && (|st.selection| > 0 && before.id in st.selection ==>
            after == before.(status := Booked, selected := false))
      && (|st.selection| == 0 || before.id !in st.selection ==> after == before)
  {
    if |st.selection| == 0 then Outcome(st, None)
    else Outcome(State(BookGrid(st.grid, st.selection), []), Some(st.selection))
  }

  /** A booked seat stays booked across a commit. */
  lemma CommitKeepsBooked(st: State, r: int, c: int)
    requires InGrid(st.grid, r, c) && st.grid[r][c].status == Booked
    ensures Commit(st).state.grid[r][c].status == Booked
  {
  }

  /** After a commit every seat whose id was handed to the callback is booked. */
  lemma CommittedSeatsBooked(st: State, r: int, c: int)
    requires InGrid(st.grid, r, c)
    requires Commit(st).completed.Some? && st.grid[r][c].id in Commit(st).completed.value
    ensures Commit(st).state.grid[r][c].status == Booked
  {
  }

  /** A commit keeps the state invariant: nothing is picked afterwards, so
      the cleared selection list is again the recomputed one. */
  lemma CommitPreservesValid(st: State)
    requires Valid(st)
    ensures Valid(Commit(st).state)
  {
    var g := Commit(st).state.grid;
    if |st.selection| > 0 {
      forall r, c | InGrid(g, r, c)
        ensures !IsPicked(g[r][c])
      {
        if IsPicked(st.grid[r][c]) {
          assert st.grid[r][c].id in st.selection;
        }
      }
      NothingPicked(g);
    }
  }

  lemma {:induction false} FlattenBookGrid(g: Grid, selection: seq<Str>)
    ensures Flatten(BookGrid(g, selection)) == BookRow(Flatten(g), selection)
    decreases |g|
  {
    if |g| > 0 {
      var n := |g| - 1;
      var h := BookGrid(g, selection);
      assert h[..n] == BookGrid(g[..n], selection);
      FlattenBookGrid(g[..n], selection);
      assert BookRow(Flatten(g[..n]) + g[n], selection)
          == BookRow(Flatten(g[..n]), selection) + BookRow(g[n], selection);
    }
  }

  /** The available seats a commit of `selection` takes away from `s`. */
  function CountLost(s: seq<Seat>, selection: seq<Str>): nat
  {
    if |s| == 0 then 0
    else
      var last := s[|s| - 1];
      CountLost(s[..|s| - 1], selection) + (if last.status == Available && last.id in selection then 1 else 0)
  }

  lemma {:induction false} BookRowCount(s: seq<Seat>, selection: seq<Str>)
    ensures CountAvailable(BookRow(s, selection)) + CountLost(s, selection) == CountAvailable(s)
    decreases |s|
  {
    if |s| > 0 {
      var n := |s| - 1;
      var t := BookRow(s, selection);
      assert t[..n] == BookRow(s[..n], selection);
      assert t[n] == BookSeat(s[n], selection);
      BookRowCount(s[..n], selection);
      assert CountAvailable(t) == CountAvailable(t[..n]) + (if t[n].status == Available then 1 else 0);
    }
  }

  /** When "available and listed" coincides with "picked" seat by seat, the
      lost count is the length of the selection list. */
  lemma {:induction false} CountLostIsPicked(s: seq<Seat>, selection: seq<Str>)
    requires forall i :: 0 <= i < |s| ==>
      (s[i].status == Available && s[i].id in selection <==> IsPicked(s[i]))
    ensures CountLost(s, selection) == |PickedIds(s)|
    decreases |s|
  {
    if |s| > 0 {
      CountLostIsPicked(s[..|s| - 1], selection);
    }
  }

  /** In a valid state an available seat is listed exactly when it is picked. */
  lemma ListedMeansPicked(s: seq<Seat>)
    requires DistinctIds(s)
    ensures forall i :: 0 <= i < |s| ==>
      (s[i].status == Available && s[i].id in PickedIds(s) <==> IsPicked(s[i]))
  {
    forall i | 0 <= i < |s| && s[i].status == Available && s[i].id in PickedIds(s)
      ensures IsPicked(s[i])
    {
      var j :| 0 <= j < |s| && IsPicked(s[j]) && s[j].id == s[i].id;
      assert i == j;
    }
  }

  /** The remaining-available count drops by exactly the length of the
      selection list on a commit from a valid state. */
  lemma CommitReducesAvailable(st: State)
    requires Valid(st)
    ensures AvailableCount(Commit(st).state.grid) == AvailableCount(st.grid) - |st.selection|
  {
    if |st.selection| > 0 {
      var s := Flatten(st.grid);
      FlattenBookGrid(st.grid, st.selection);
      BookRowCount(s, st.selection);
      FlattenDistinct(st.grid);
      ListedMeansPicked(s);
      CountLostIsPicked(s, st.selection);
    }
  }

}

=== FILE: grid_init.dfy ===
/** Building the seat grid from the layout, the tier configuration and the
    list of pre-booked seat ids. */
module GridInit {

  import opened JsString
  import opened Optional
  import opened Seats
  import opened Tiers

  /** Price used when a tier's price is falsy (absent or zero). */
  const DefaultPrice: int := 150

  /** Tier key used when a tier's key is falsy (the empty string). */
  const RegularKey: Str := Ascii("regular")

  /** Number of loop iterations of `for (i = 0; i < n; i++)`. */
  function Iterations(n: int): nat
  {
    if n > 0 then n else 0
  }

  /** The id of the seat at (r, c): the code unit 65 + r (so `A` for row 0)
      followed by the decimal form of c + 1. */
  function SeatId(r: nat, c: nat): (id: Str)
    ensures 2 <= |id|
    ensures LetterA + r < CodeUnitCount ==> id[0] == LetterA + r
    ensures AllDigits(id[1..]) && DigitsValue(id[1..]) == c + 1
  {
    var id := [FromCharCode(LetterA + r)] + Decimal(c + 1);
    assert id[1..] == Decimal(c + 1);
    DecimalRoundTrip(c + 1);
    id
  }

  /** Row letters are distinct for the first 2^16 rows. */
  lemma RowLetterInjective(r1: nat, r2: nat)
    requires r1 < CodeUnitCount && r2 < CodeUnitCount
    requires FromCharCode(LetterA + r1) == FromCharCode(LetterA + r2)
    ensures r1 == r2
  {
    var m := CodeUnitCount;
    assert LetterA + r1 < 2 * m && LetterA + r2 < 2 * m;
    if LetterA + r1 >= m && LetterA + r2 >= m {
      assert FromCharCode(LetterA + r1) == LetterA + r1 - m;
      assert FromCharCode(LetterA + r2) == LetterA + r2 - m;
    }
  }

  /** Seat ids name their position uniquely while the row count is at most 2^16. */
  lemma SeatIdInjective(r1: nat, c1: nat, r2: nat, c2: nat)
    requires r1 < CodeUnitCount && r2 < CodeUnitCount
    requires SeatId(r1, c1) == SeatId(r2, c2)
    ensures r1 == r2 && c1 == c2
  {
    var a, b := SeatId(r1, c1), SeatId(r2, c2);
    assert a[0] == b[0];
    RowLetterInjective(r1, r2);
    assert a[1..] == Decimal(c1 + 1) && b[1..] == Decimal(c2 + 1);
    DecimalInjective(c1 + 1, c2 + 1);
  }

  /** Past 2^16 rows the row letter wraps around and ids repeat: row 65536
      reuses the ids of row 0. */
  lemma SeatIdWrapsAt65536(c: nat)
    ensures SeatId(CodeUnitCount, c) == SeatId(0, c)
  {
    assert FromCharCode(LetterA + CodeUnitCount) == LetterA;
  }

  function EffectivePrice(price: Option<int>): (p: int)
    ensures p != 0
    ensures price.Some? && price.value != 0 ==> p == price.value
    ensures price.None? || price.value == 0 ==> p == DefaultPrice
  {
    match price
    case Some(v) => if v != 0 then v else DefaultPrice
    case None => DefaultPrice
  }

  function EffectiveKey(key: Str): Str
  {
    if key == [] then RegularKey else key
  }

  /** The seat record built for (r, c) from its row's tier. */
  function NewSeat(info: TierInfo, booked: seq<Str>, r: nat, c: nat): Seat
  {
    var id := SeatId(r, c);
    Seat(id, r, c, EffectiveKey(info.key), EffectivePrice(info.price), info.color,
         if id in booked then Booked else Available, false)
  }

  function BuildRow(info: TierInfo, booked: seq<Str>, r: nat, width: nat): seq<Seat>
  {
    seq(width, c requires 0 <= c < width => NewSeat(info, booked, r, c))
  }

  /** `initializeSeats`: `None` when a row has to be resolved against an empty
      tier configuration (the lookup throws); otherwise the grid. */
  function InitializeSeats(layout: Layout, tiers: seq<TierEntry>, booked: seq<Str>): (g: Option<Grid>)
    ensures g.None? <==> Iterations(layout.rows) > 0 && |tiers| == 0
    ensures g.Some? ==>
      && |g.value| == Iterations(layout.rows)
      && forall r :: 0 <= r < |g.value| ==> |g.value[r]| == Iterations(layout.seatsPerRow)
    ensures g.Some? ==> forall r, c :: InGrid(g.value, r, c) ==>
      var s := g.value[r][c];
      var info := GetSeatType(tiers, r).value;
      && s.id == SeatId(r, c)
      && s.row == r && s.seat == c
      && !s.selected
      && (s.status == Booked <==> SeatId(r, c) in booked)
      && s.tier == EffectiveKey(info.key)
      && s.price == EffectivePrice(info.price)
      && s.color == info.color
  {
    var n, m := Iterations(layout.rows), Iterations(layout.seatsPerRow);
    if n > 0 && |tiers| == 0 then None
    else Some(seq(n, r requires 0 <= r < n => BuildRow(GetSeatType(tiers, r).value, booked, r, m)))
  }

  /** Every seat's tier and colour come from the first tier that lists its
      row, and a row no tier lists gets the first tier in the first colour. */
  lemma InitialSeatTier(layout: Layout, tiers: seq<TierEntry>, booked: seq<Str>, r: int, c: int, k: int)
    requires InitializeSeats(layout, tiers, booked).Some?
    requires InGrid(InitializeSeats(layout, tiers, booked).value, r, c)
    requires 0 <= k < |tiers|
    requires
      || (r in tiers[k].rows && forall j :: 0 <= j < k ==> r !in tiers[j].rows)
      || (k == 0 && forall j :: 0 <= j < |tiers| ==> r !in tiers[j].rows)
    ensures var s := InitializeSeats(layout, tiers, booked).value[r][c];
      s.price == EffectivePrice(tiers[k].price) && s.color == Palette[k % |Palette|]
  {
  }

  /** The freshly built grid satisfies the state invariant with an empty
      selection, provided it has at most 2^16 rows. */
  lemma InitialGridValid(layout: Layout, tiers: seq<TierEntry>, booked: seq<Str>)
    requires InitializeSeats(layout, tiers, booked).Some?
    requires layout.rows <= CodeUnitCount
    ensures Valid(State(InitializeSeats(layout, tiers, booked).value, []))
  {
    var g := InitializeSeats(layout, tiers, booked).value;
    forall r1, c1, r2, c2 | InGrid(g, r1, c1) && InGrid(g, r2, c2) && (r1 != r2 || c1 != c2)
      ensures g[r1][c1].id != g[r2][c2].id
    {
      if g[r1][c1].id == g[r2][c2].id {
        SeatIdInjective(r1, c1, r2, c2);
      }
    }
    NothingPicked(g);
  }

}

=== FILE: js_string.dfy ===
/** Strings as JavaScript stores them: sequences of UTF-16 code units.
    The seat ids are built with `String.fromCharCode`, which works on code
    units (not on Unicode scalar values), so the model does the same. */
module JsString {

  /** One UTF-16 code unit. */
  type CodeUnit = x: int | 0 <= x < 0x1_0000

  type Str = seq<CodeUnit>

  const CodeUnitCount: int := 0x1_0000
  const DigitZero: CodeUnit := 48
  const LetterA: CodeUnit := 65

  predicate IsAscii(s: string)
  {
    forall i :: 0 <= i < |s| ==> s[i] as int < 128
  }

  /** An ASCII literal as the code units JavaScript stores for it. */
  function Ascii(s: string): Str
    requires IsAscii(s)
  {
    seq(|s|, i requires 0 <= i < |s| => s[i] as int)
  }

  /** `String.fromCharCode(n)` for an integer `n`: the code unit ToUint16(n),
      that is `n` reduced modulo 2^16. */
  function FromCharCode(n: int): (u: CodeUnit)
    ensures 0 <= n < CodeUnitCount ==> u == n
    ensures (n - u) % CodeUnitCount == 0
  {
    n % CodeUnitCount
  }

  predicate IsDigit(u: CodeUnit)
  {
    DigitZero <= u <= DigitZero + 9
  }

  predicate AllDigits(s: Str)
  {
    forall i :: 0 <= i < |s| ==> IsDigit(s[i])
  }

  /** `String(n)` (or `${n}`) for a non-negative integer below 2^53, where
      JavaScript prints exact integer digits: the decimal digits, most
      significant first, with no leading zero. */
  function Decimal(n: nat): (s: Str)
    ensures 1 <= |s|
    ensures AllDigits(s)
    ensures |s| > 1 ==> s[0] != DigitZero
    decreases n
  {
    if n < 10 then [DigitZero + n] else Decimal(n / 10) + [DigitZero + n % 10]
  }

  /** The value of a string of decimal digits; the inverse of `Decimal`. */
  function DigitsValue(s: Str): nat
    requires AllDigits(s)
  {
    if |s| == 0 then 0 else 10 * DigitsValue(s[..|s| - 1]) + (s[|s| - 1] - DigitZero)
  }

  /** Reading back the decimal form of `n` gives `n`. */
  lemma {:induction false} DecimalRoundTrip(n: nat)
    ensures DigitsValue(Decimal(n)) == n
    decreases n
  {
    if n >= 10 {
      var s := Decimal(n);
      assert s[..|s| - 1] == Decimal(n / 10);
      DecimalRoundTrip(n / 10);
    }
  }

  /** Different numbers have different decimal forms. */
  lemma DecimalInjective(m: nat, n: nat)
    requires Decimal(m) == Decimal(n)
    ensures m == n
  {
    DecimalRoundTrip(m);
    DecimalRoundTrip(n);
  }

}

=== FILE: optional.dfy ===
/** An optional value: `None` stands for JavaScript's `undefined`, or for an
    operation that throws instead of returning. */
module Optional {

  datatype Option<T> = None | Some(value: T)

}

=== FILE: seats.dfy ===
/** The data model of the seat map: seats, the grid of rows, the layout, and
    the views the component derives from the grid (the row-major seat list,
    the selection list, the available count). */
module Seats {

  import opened JsString

  /** The eight colour tokens, in palette order. */
  datatype Color = Blue | Purple | Yellow | Green | Red | Indigo | Pink | Gray

  const Palette: seq<Color> := [Blue, Purple, Yellow, Green, Red, Indigo, Pink, Gray]

  datatype Status = Available | Booked

  /** One seat record: `row` and `seat` are its grid coordinates, `tier` is
      the tier key it was given at construction. */
  datatype Seat = Seat(
    id: Str,
    row: int,
    seat: int,
    tier: Str,
    price: int,
    color: Color,
    status: Status,
    selected: bool)

  /** The seat map: one sequence of seats per row. */
  type Grid = seq<seq<Seat>>

  /** Grid shape: `rows` rows of `seatsPerRow` seats, split visually after
      `aislePosition` seats. Negative counts give no rows or seats. */
  datatype Layout = Layout(rows: int, seatsPerRow: int, aislePosition: int)

  /** The component state: the grid and the list of selected ids. */
  datatype State = State(grid: Grid, selection: seq<Str>)

  /** A seat that counts as part of the selection: selected and available. */
  predicate IsPicked(s: Seat)
  {
    s.selected && s.status == Available
  }

  predicate InGrid(g: Grid, r: int, c: int)
  {
    0 <= r < |g| && 0 <= c < |g[r]|
  }

  predicate SameShape(g: Grid, h: Grid)
  {
    |g| == |h| && forall r :: 0 <= r < |g| ==> |g[r]| == |h[r]|
  }

  /** Every seat knows its own coordinates. */
  ghost predicate Positioned(g: Grid)
  {
    forall r, c :: InGrid(g, r, c) ==> g[r][c].row == r && g[r][c].seat == c
  }

  /** No two positions of the grid carry the same id. */
  ghost predicate DistinctIdsGrid(g: Grid)
  {
    forall r1, c1, r2, c2 ::
      InGrid(g, r1, c1) && InGrid(g, r2, c2) && (r1 != r2 || c1 != c2) ==>
        g[r1][c1].id != g[r2][c2].id
  }

  predicate NoDuplicates<T(==)>(s: seq<T>)
  {
    forall i, j :: 0 <= i < j < |s| ==> s[i] != s[j]
  }

  /** No two positions of a seat list carry the same id. */
  predicate DistinctIds(s: seq<Seat>)
  {
    forall i, j :: 0 <= i < j < |s| ==> s[i].id != s[j].id
  }

  /** A booked seat is never also marked selected. */
  ghost predicate NoBookedSelected(g: Grid)
  {
    forall r, c :: InGrid(g, r, c) && g[r][c].status == Booked ==> !g[r][c].selected
  }

  /** `seats.flat()`: every seat of the grid, in row-major order. */
  function Flatten(g: Grid): seq<Seat>
  {
    if |g| == 0 then [] else Flatten(g[..|g| - 1]) + g[|g| - 1]
  }

  lemma {:induction false} FlattenAppend(a: Grid, b: Grid)
    ensures Flatten(a + b) == Flatten(a) + Flatten(b)
    decreases |b|
  {
    if |b| == 0 {
      assert a + b == a;
    } else {
      var n := |b| - 1;
      assert (a + b)[..|a + b| - 1] == a + b[..n];
      FlattenAppend(a, b[..n]);
    }
  }

  lemma FlattenSingle(row: seq<Seat>)
    ensures Flatten([row]) == row
  {
    assert [row][..0] == [];
  }

  lemma FlattenAt(g: Grid, r: int)
    requires 0 <= r <= |g|
    ensures Flatten(g) == Flatten(g[..r]) + Flatten(g[r..])
  {
    assert g == g[..r] + g[r..];
    FlattenAppend(g[..r], g[r..]);
  }

  lemma FlattenCons(row: seq<Seat>, after: Grid)
    ensures Flatten([row] + after) == row + Flatten(after)
  {
    FlattenAppend([row], after);
    FlattenSingle(row);
  }

  lemma FlattenDrop(g: Grid, r: int)
    requires 0 <= r < |g|
    ensures Flatten(g[r..]) == g[r] + Flatten(g[r + 1..])
  {
    assert g[r..] == [g[r]] + g[r + 1..];
    FlattenCons(g[r], g[r + 1..]);
  }

  /** Row `r` sits in the flat list right after the rows before it. */
  lemma FlattenSplit(g: Grid, r: int)
    requires 0 <= r < |g|
    ensures Flatten(g) == Flatten(g[..r]) + g[r] + Flatten(g[r + 1..])
  {
    FlattenAt(g, r);
    FlattenDrop(g, r);
    ConcatAssociative(Flatten(g[..r]), g[r], Flatten(g[r + 1..]));
  }

  lemma ConcatAssociative(a: seq<Seat>, b: seq<Seat>, c: seq<Seat>)
    ensures a + (b + c) == a + b + c
  {
  }

  /** Each entry of the flat list is the seat at some grid position. */
  lemma {:induction false} FlattenElement(g: Grid, k: int)
    requires 0 <= k < |Flatten(g)|
    ensures exists r, c :: InGrid(g, r, c) && Flatten(g)[k] == g[r][c]
    decreases |g|
  {
    var n := |g| - 1;
    var front := Flatten(g[..n]);
    if k < |front| {
      FlattenElement(g[..n], k);
      var r, c :| InGrid(g[..n], r, c) && front[k] == g[..n][r][c];
      assert InGrid(g, r, c) && Flatten(g)[k] == g[r][c];
    } else {
      assert InGrid(g, n, k - |front|) && Flatten(g)[k] == g[n][k - |front|];
    }
  }

  /** Each grid position appears in the flat list. */
  lemma {:induction false} FlattenContains(g: Grid, r: int, c: int)
    requires InGrid(g, r, c)
    ensures g[r][c] in Flatten(g)
  {
    FlattenSplit(g, r);
    assert g[r][c] == (Flatten(g[..r]) + g[r] + Flatten(g[r + 1..]))[|Flatten(g[..r])| + c];
  }

  /** The flat list holds exactly the seats found at grid positions. */
  lemma FlattenMembers(g: Grid)
    ensures forall x :: x in Flatten(g) <==> exists r, c :: InGrid(g, r, c) && g[r][c] == x
  {
    forall x | x in Flatten(g)
      ensures exists r, c :: InGrid(g, r, c) && g[r][c] == x
    {
      var k :| 0 <= k < |Flatten(g)| && Flatten(g)[k] == x;
      FlattenElement(g, k);
    }
    forall r, c | InGrid(g, r, c)
      ensures g[r][c] in Flatten(g)
    {
      FlattenContains(g, r, c);
    }
  }

  /** Distinct ids at grid positions give distinct ids in the flat list. */
  lemma {:induction false} FlattenDistinct(g: Grid)
    requires DistinctIdsGrid(g)
    ensures DistinctIds(Flatten(g))
    decreases |g|
  {
    if |g| > 0 {
      var n := |g| - 1;
      var front := Flatten(g[..n]);
      var s := Flatten(g);
      assert s == front + g[n];
      FlattenDistinct(g[..n]);
      forall i, j | 0 <= i < j < |s|
        ensures s[i].id != s[j].id
      {
        if j < |front| {
          assert s[i] == front[i] && s[j] == front[j];
        } else if |front| <= i {
          assert s[i] == g[n][i - |front|] && s[j] == g[n][j - |front|];
        } else {
          FlattenElement(g[..n], i);
          var r, c :| InGrid(g[..n], r, c) && front[i] == g[..n][r][c];
          assert s[i] == g[r][c] && s[j] == g[n][j - |front|];
        }
      }
    }
  }

  /** The number of available seats in a seat list. */
  function CountAvailable(s: seq<Seat>): (n: nat)
    ensures n <= |s|
  {
    if |s| == 0 then 0
    else CountAvailable(s[..|s| - 1]) + (if s[|s| - 1].status == Available then 1 else 0)
  }

  /** The count is full exactly when every seat is available, and zero
      exactly when every seat is booked. */
  lemma {:induction false} CountAvailableExtremes(s: seq<Seat>)
    ensures CountAvailable(s) == |s| <==> forall i :: 0 <= i < |s| ==> s[i].status == Available
    ensures CountAvailable(s) == 0 <==> forall i :: 0 <= i < |s| ==> s[i].status == Booked
    decreases |s|
  {
    if |s| > 0 {
      var front := s[..|s| - 1];
      CountAvailableExtremes(front);
      assert forall i :: 0 <= i < |front| ==> front[i] == s[i];
    }
  }

  lemma {:induction false} CountAvailableAppend(a: seq<Seat>, b: seq<Seat>)
    ensures CountAvailable(a + b) == CountAvailable(a) + CountAvailable(b)
    decreases |b|
  {
    if |b| > 0 {
      var n := |b| - 1;
      assert (a + b)[..|a + b| - 1] == a + b[..n];
      CountAvailableAppend(a, b[..n]);
    } else {
      assert a + b == a;
    }
  }

  /** The remaining-available figure: the number of available seats of the grid. */
  function AvailableCount(g: Grid): (n: nat)
    ensures n <= |Flatten(g)|
    ensures n == |Flatten(g)| <==> forall i :: 0 <= i < |Flatten(g)| ==> Flatten(g)[i].status == Available
    ensures n == 0 <==> forall i :: 0 <= i < |Flatten(g)| ==> Flatten(g)[i].status == Booked
  {
    CountAvailableExtremes(Flatten(g));
    CountAvailable(Flatten(g))
  }

  lemma {:induction false} CountAvailableSameStatus(a: seq<Seat>, b: seq<Seat>)
    requires |a| == |b|
    requires forall i :: 0 <= i < |a| ==> a[i].status == b[i].status
    ensures CountAvailable(a) == CountAvailable(b)
    decreases |a|
  {
    if |a| > 0 {
      CountAvailableSameStatus(a[..|a| - 1], b[..|b| - 1]);
    }
  }

  /** Grids of one shape with the same status at every position have the
      same available count. */
  lemma {:induction false} AvailableCountSameStatus(g: Grid, h: Grid)
    requires SameShape(g, h)
    requires forall r, c :: InGrid(g, r, c) ==> g[r][c].status == h[r][c].status
    ensures AvailableCount(g) == AvailableCount(h)
    decreases |g|
  {
    if |g| > 0 {
      var n := |g| - 1;
      var g', h' := g[..n], h[..n];
      assert forall r :: 0 <= r < n ==> g'[r] == g[r] && h'[r] == h[r];
      AvailableCountSameStatus(g', h');
      CountAvailableSameStatus(g[n], h[n]);
      assert Flatten(g) == Flatten(g') + g[n];
      assert Flatten(h) == Flatten(h') + h[n];
      CountAvailableAppend(Flatten(g'), g[n]);
      CountAvailableAppend(Flatten(h'), h[n]);
    }
  }

  /** The ids of the picked seats of a seat list, in list order. */
  function PickedIds(s: seq<Seat>): (ids: seq<Str>)
    ensures |ids| <= |s|
    ensures forall id :: id in ids <==> exists i :: 0 <= i < |s| && IsPicked(s[i]) && s[i].id == id
  {
    if |s| == 0 then []
    else
      var front := s[..|s| - 1];
      var last := s[|s| - 1];
      var ids := PickedIds(front) + (if IsPicked(last) then [last.id] else []);
      assert forall i :: 0 <= i < |front| ==> front[i] == s[i];
      ids
  }

  /** `PickedIds` is fixed by its value on one seat and by splitting over
      concatenation: it keeps the picked ids and their order. */
  lemma {:induction false} PickedIdsAppend(a: seq<Seat>, b: seq<Seat>)
    ensures PickedIds(a + b) == PickedIds(a) + PickedIds(b)
    decreases |b|
  {
    if |b| > 0 {
      var n := |b| - 1;
      assert (a + b)[..|a + b| - 1] == a + b[..n];
      PickedIdsAppend(a, b[..n]);
    } else {
      assert a + b == a;
    }
  }

  lemma PickedIdsSingle(x: Seat)
    ensures PickedIds([x]) == if IsPicked(x) then [x.id] else []
  {
    assert [x][..0] == [];
  }

  /** With distinct seat ids, the selection list has no duplicates. */
  lemma {:induction false} PickedIdsNoDuplicates(s: seq<Seat>)
    requires DistinctIds(s)
    ensures NoDuplicates(PickedIds(s))
    decreases |s|
  {
    if |s| > 0 {
      var n := |s| - 1;
      var front := s[..n];
      assert DistinctIds(front);
      PickedIdsNoDuplicates(front);
      if IsPicked(s[n]) {
        assert s[n].id !in PickedIds(front);
      }
    }
  }

  /** The selection list recomputed from the grid (row-major, picked seats). */
  function SelectedIds(g: Grid): (ids: seq<Str>)
    ensures forall id :: id in ids <==>
      exists r, c :: InGrid(g, r, c) && IsPicked(g[r][c]) && g[r][c].id == id
  {
    var ids := PickedIds(Flatten(g));
    forall id | id in ids
      ensures exists r, c :: InGrid(g, r, c) && IsPicked(g[r][c]) && g[r][c].id == id
    {
      var i :| 0 <= i < |Flatten(g)| && IsPicked(Flatten(g)[i]) && Flatten(g)[i].id == id;
      FlattenElement(g, i);
    }
    forall r, c | InGrid(g, r, c) && IsPicked(g[r][c])
      ensures g[r][c].id in ids
    {
      FlattenContains(g, r, c);
      var i :| 0 <= i < |Flatten(g)| && Flatten(g)[i] == g[r][c];
    }
    ids
  }

  /** A grid with no picked seat has an empty selection list. */
  lemma {:induction false} NothingPicked(g: Grid)
    requires forall r, c :: InGrid(g, r, c) ==> !IsPicked(g[r][c])
    ensures SelectedIds(g) == []
  {
    var s := Flatten(g);
    forall i | 0 <= i < |s|
      ensures !IsPicked(s[i])
    {
      FlattenElement(g, i);
    }
    PickedIdsNone(s);
  }

  lemma {:induction false} PickedIdsNone(s: seq<Seat>)
    requires forall i :: 0 <= i < |s| ==> !IsPicked(s[i])
    ensures PickedIds(s) == []
    decreases |s|
  {
    if |s| > 0 {
      PickedIdsNone(s[..|s| - 1]);
    }
  }

  /** The state invariant: the selection list is the recomputed one, ids
      are distinct, seats know their coordinates, and no booked seat is selected. */
  ghost predicate Valid(st: State)
  {
    && st.selection == SelectedIds(st.grid)
    && DistinctIdsGrid(st.grid)
    && Positioned(st.grid)
    && NoBookedSelected(st.grid)
  }

}

=== FILE: selection.dfy ===
/** The seat-click handler: toggle one available seat, then recompute the
    selection list from the whole grid. */
module Selection {

  import opened Seats

  /** The grid after a click at (r, c): the seat there flips `selected` when
      it is available; every other seat is passed through. Coordinates
      outside the grid match no seat. */
  function ToggleSeat(g: Grid, r: int, c: int): (h: Grid)
    ensures SameShape(g, h)
    ensures forall i, j :: InGrid(g, i, j) && (i != r || j != c) ==> h[i][j] == g[i][j]
    ensures InGrid(g, r, c) && g[r][c].status == Booked ==> h[r][c] == g[r][c]
    ensures InGrid(g, r, c) && g[r][c].status == Available ==>
      h[r][c] == g[r][c].(selected := !g[r][c].selected)
  {
    seq(|g|, i requires 0 <= i < |g| =>
      seq(|g[i]|, j requires 0 <= j < |g[i]| =>
        if i == r && j == c && g[i][j].status == Available
        then g[i][j].(selected := !g[i][j].selected)
        else g[i][j]))
  }

  /** `handleSeatClick(r, c)`: the new grid and the selection list recomputed
      from it. */
  function Click(st: State, r: int, c: int): (st': State)
    ensures SameShape(st.grid, st'.grid)
    ensures forall id :: id in st'.selection <==>
      exists i, j :: InGrid(st'.grid, i, j) && IsPicked(st'.grid[i][j]) && st'.grid[i][j].id == id
  {
    var g := ToggleSeat(st.grid, r, c);
    State(g, SelectedIds(g))
  }

  /** A click changes no seat's status, id or coordinates; at most the
      `selected` flag of the clicked seat changes. */
  lemma ClickKeepsStatus(st: State, r: int, c: int)
    ensures forall i, j :: InGrid(st.grid, i, j) ==>
      var before, after := st.grid[i][j], Click(st, r, c).grid[i][j];
      after == before.(selected := after.selected)
  {
  }

  /** A click touches at most one seat: any two positions where the grid
      changed are the same position, the clicked one. */
  lemma ClickTouchesAtMostOne(st: State, r: int, c: int, i: int, j: int)
    requires InGrid(st.grid, i, j)
    requires Click(st, r, c).grid[i][j] != st.grid[i][j]
    ensures i == r && j == c && st.grid[r][c].status == Available
  {
  }

  /** Clicking a booked seat, or a position outside the grid, leaves the
      state of a valid component unchanged. */
  lemma ClickWithoutEffect(st: State, r: int, c: int)
    requires Valid(st)
    requires !InGrid(st.grid, r, c) || st.grid[r][c].status == Booked
    ensures Click(st, r, c) == st
  {
    var g := ToggleSeat(st.grid, r, c);
    assert g == st.grid by {
      forall i | 0 <= i < |g|
        ensures g[i] == st.grid[i]
      {
      }
    }
  }

  /** Two clicks on the same position restore the grid. */
  lemma ToggleTwice(g: Grid, r: int, c: int)
    ensures ToggleSeat(ToggleSeat(g, r, c), r, c) == g
  {
    var h := ToggleSeat(ToggleSeat(g, r, c), r, c);
    forall i | 0 <= i < |g|
      ensures h[i] == g[i]
    {
    }
  }

  /** Two clicks on the same position restore the whole state, selection
      list included, of a valid component. */
  lemma ClickTwiceRestores(st: State, r: int, c: int)
    requires Valid(st)
    ensures Click(Click(st, r, c), r, c) == st
  {
    ToggleTwice(st.grid, r, c);
  }

  /** A click keeps the state invariant; in particular the selection list
      is again exactly the picked seats, without duplicates. */
  lemma ClickPreservesValid(st: State, r: int, c: int)
    requires Valid(st)
    ensures Valid(Click(st, r, c))
    ensures NoDuplicates(Click(st, r, c).selection)
  {
    var g := Click(st, r, c).grid;
    assert DistinctIdsGrid(g);
    FlattenDistinct(g);
    PickedIdsNoDuplicates(Flatten(g));
  }

  /** A booked seat stays booked across a click. */
  lemma ClickKeepsBooked(st: State, r: int, c: int, i: int, j: int)
    requires InGrid(st.grid, i, j) && st.grid[i][j].status == Booked
    ensures Click(st, r, c).grid[i][j].status == Booked
  {
  }

}

=== FILE: session.dfy ===
/** A whole visit of the booking view: mount the grid, then any sequence of
    seat clicks and "Book Now" presses. */
module Session {

  import opened JsString
  import opened Optional
  import opened Seats
  import opened Tiers
  import opened GridInit
  import opened Selection
  import opened Booking
  import opened Summary

  /** The state the component mounts with: the built grid and an empty
      selection; `None` when building the grid throws. */
  function Mount(layout: Layout, tiers: seq<TierEntry>, booked: seq<Str>): (st: Option<State>)
    ensures st.Some? <==> InitializeSeats(layout, tiers, booked).Some?
    ensures st.Some? && layout.rows <= CodeUnitCount ==> Valid(st.value)
  {
    match InitializeSeats(layout, tiers, booked)
    case Some(g) =>
      MountedValid(layout, tiers, booked);
      Some(State(g, []))
    case None => None
  }

  lemma MountedValid(layout: Layout, tiers: seq<TierEntry>, booked: seq<Str>)
    requires InitializeSeats(layout, tiers, booked).Some?
    ensures layout.rows <= CodeUnitCount ==> Valid(State(InitializeSeats(layout, tiers, booked).value, []))
  {
    if layout.rows <= CodeUnitCount {
      InitialGridValid(layout, tiers, booked);
    }
  }

  datatype Event = SeatClick(row: int, column: int) | BookNow

  function Step(st: State, e: Event): Outcome
  {
    match e
    case SeatClick(r, c) => Outcome(Click(st, r, c), None)
    case BookNow => Commit(st)
  }

  /** The state after handling `events` in order. */
  function Run(st: State, events: seq<Event>): State
    decreases |events|
  {
    if |events| == 0 then st else Run(Step(st, events[0]).state, events[1..])
  }

  /** The arguments the completion callback received, call by call. */
  function Completions(st: State, events: seq<Event>): seq<seq<Str>>
    decreases |events|
  {
    if |events| == 0 then []
    else
      var o := Step(st, events[0]);
      (if o.completed.Some? then [o.completed.value] else []) + Completions(o.state, events[1..])
  }

  function TotalLength(lists: seq<seq<Str>>): nat
  {
    if |lists| == 0 then 0 else |lists[0]| + TotalLength(lists[1..])
  }

  lemma StepPreservesValid(st: State, e: Event)
    requires Valid(st)
    ensures Valid(Step(st, e).state)
    ensures SameShape(st.grid, Step(st, e).state.grid)
  {
    match e
    case SeatClick(r, c) => ClickPreservesValid(st, r, c);
    case BookNow => CommitPreservesValid(st);
  }

  /** Every reachable state satisfies the invariant: the selection list is
      exactly the picked seats in row-major order and holds no duplicates. */
  lemma {:induction false} RunPreservesValid(st: State, events: seq<Event>)
    requires Valid(st)
    ensures Valid(Run(st, events))
    ensures SameShape(st.grid, Run(st, events).grid)
    ensures NoDuplicates(Run(st, events).selection)
    decreases |events|
  {
    if |events| == 0 {
      FlattenDistinct(st.grid);
      PickedIdsNoDuplicates(Flatten(st.grid));
    } else {
      StepPreservesValid(st, events[0]);
      RunPreservesValid(Step(st, events[0]).state, events[1..]);
    }
  }

  /** Booked seats never revert, whatever the user does. */
  lemma {:induction false} RunKeepsBooked(st: State, events: seq<Event>, r: int, c: int)
    requires InGrid(st.grid, r, c) && st.grid[r][c].status == Booked
    ensures InGrid(Run(st, events).grid, r, c)
    ensures Run(st, events).grid[r][c].status == Booked
    decreases |events|
  {
    if |events| > 0 {
      var e := events[0];
      match e {
        case SeatClick(i, j) => ClickKeepsBooked(st, i, j, r, c);
        case BookNow => CommitKeepsBooked(st, r, c);
      }
      RunKeepsBooked(Step(st, e).state, events[1..], r, c);
    }
  }

  /** Over any visit the available count drops by exactly the number of
      seat ids handed to the completion callback. */
  lemma {:induction false} RunAvailableAccounting(st: State, events: seq<Event>)
    requires Valid(st)
    ensures AvailableCount(Run(st, events).grid) + TotalLength(Completions(st, events)) == AvailableCount(st.grid)
    decreases |events|
  {
    if |events| > 0 {
      var e := events[0];
      var o := Step(st, e);
      match e {
        case SeatClick(i, j) =>
          AvailableCountSameStatus(st.grid, o.state.grid);
        case BookNow =>
          CommitReducesAvailable(st);
      }
      StepPreservesValid(st, e);
      RunAvailableAccounting(o.state, events[1..]);
      var rest := Completions(o.state, events[1..]);
      if o.completed.Some? {
        assert Completions(st, events) == [o.completed.value] + rest;
        assert ([o.completed.value] + rest)[1..] == rest;
      } else {
        assert Completions(st, events) == rest;
      }
    }
  }

  /** The default configuration of the component. */
  const DefaultLayout: Layout := Layout(8, 12, 5)

  const DefaultTiers: seq<TierEntry> := [
    TierEntry(RegularKey, Ascii("Regular"), Some(150), [0, 1, 2]),
    TierEntry(Ascii("premium"), Ascii("Premium"), Some(250), [3, 4, 5]),
    TierEntry(VipKey, Ascii("VIP"), Some(350), [6, 7])
  ]

  /** The ids and tier keys the default example refers to. */
  const IdA1: Str := Ascii("A1")
  const IdA2: Str := Ascii("A2")
  const IdG1: Str := Ascii("G1")
  const VipKey: Str := Ascii("vip")

  lemma DefaultSeats()
    ensures InitializeSeats(DefaultLayout, DefaultTiers, []).Some?
    ensures var g := InitializeSeats(DefaultLayout, DefaultTiers, []).value;
      && InGrid(g, 0, 1) && InGrid(g, 6, 0)
      && g[0][0].price == 150 && g[0][1].price == 150 && g[6][0].price == 350
      && g[0][0].tier == RegularKey && g[0][1].tier == RegularKey && g[6][0].tier == VipKey
  {
    assert GetSeatType(DefaultTiers, 0) == Some(InfoAt(DefaultTiers, 0));
    assert GetSeatType(DefaultTiers, 6) == Some(InfoAt(DefaultTiers, 2));
  }

  lemma TotalOfThree(g: Grid, a: Str, b: Str, c: Str)
    ensures TotalPrice(g, [a, b, c]) == PriceOf(g, a) + PriceOf(g, b) + PriceOf(g, c)
  {
    assert [a, b, c][..2] == [a, b];
    assert [a, b][..1] == [a];
    assert [a][..0] == [];
    assert TotalPrice(g, [a]) == PriceOf(g, a);
    assert TotalPrice(g, [a, b]) == TotalPrice(g, [a]) + PriceOf(g, b);
  }

  lemma DefaultIds()
    ensures IdA1 == SeatId(0, 0)
    ensures IdA2 == SeatId(0, 1)
    ensures IdG1 == SeatId(6, 0)
  {
    assert Decimal(1) == [49] && Decimal(2) == [50];
  }

  /** Three seats at distinct-id positions are totalled at their own prices. */
  lemma TotalOfThreeSeats(g: Grid, p: int, q: int, u: int)
    requires DistinctIdsGrid(g)
    requires InGrid(g, 0, 1) && InGrid(g, 6, 0)
    requires g[0][0].price == p && g[0][1].price == q && g[6][0].price == u
    ensures TotalPrice(g, [g[0][0].id, g[0][1].id, g[6][0].id]) == p + q + u
  {
    PriceAtPosition(g, 0, 0);
    PriceAtPosition(g, 0, 1);
    PriceAtPosition(g, 6, 0);
    TotalOfThree(g, g[0][0].id, g[0][1].id, g[6][0].id);
  }

  /** With the default configuration, two Regular seats and one VIP seat
      ("A1", "A2", "G1") cost 150 + 150 + 350 = 650. */
  lemma DefaultTwoRegularOneVip()
    ensures InitializeSeats(DefaultLayout, DefaultTiers, []).Some?
    ensures var g := InitializeSeats(DefaultLayout, DefaultTiers, []).value;
      && InGrid(g, 0, 0) && InGrid(g, 0, 1) && InGrid(g, 6, 0)
      && IdA1 == g[0][0].id
      && IdA2 == g[0][1].id
      && IdG1 == g[6][0].id
      && g[0][0].tier == RegularKey && g[0][1].tier == RegularKey && g[6][0].tier == VipKey
      && g[0][0].price == 150 && g[0][1].price == 150 && g[6][0].price == 350
      && TotalPrice(g, [IdA1, IdA2, IdG1]) == 650
  {
    DefaultSeats();
    DefaultIds();
    var g := InitializeSeats(DefaultLayout, DefaultTiers, []).value;
    InitialGridValid(DefaultLayout, DefaultTiers, []);
    TotalOfThreeSeats(g, 150, 150, 350);
  }

}

=== FILE: summary.dfy ===
/** The booking summary: the total price of the selection and the vehicle
    label for the party size. */
module Summary {

  import opened JsString
  import opened Optional
  import opened Seats

  /** The first seat of `s` carrying `id`. */
  function FindSeat(s: seq<Seat>, id: Str): (found: Option<Seat>)
    ensures found.None? <==> forall i :: 0 <= i < |s| ==> s[i].id != id
    ensures found.Some? ==> found.value in s && found.value.id == id
    ensures forall i ::
      (0 <= i < |s| && s[i].id == id && forall j :: 0 <= j < i ==> s[j].id != id)
        ==> found == Some(s[i])
  {
    if |s| == 0 then None
    else if s[0].id == id then Some(s[0])
    else
      var rest := FindSeat(s[1..], id);
      assert forall i :: 1 <= i < |s| ==> s[1..][i - 1] == s[i];
      assert rest.Some? ==> rest.value in s[1..];
      rest
  }

  lemma {:induction false} FindSeatAppend(a: seq<Seat>, b: seq<Seat>, id: Str)
    ensures FindSeat(a + b, id) == if FindSeat(a, id).Some? then FindSeat(a, id) else FindSeat(b, id)
    decreases |a|
  {
    if |a| == 0 {
      assert a + b == b;
    } else {
      assert (a + b)[0] == a[0];
      assert (a + b)[1..] == a[1..] + b;
      FindSeatAppend(a[1..], b, id);
    }
  }

  /** What one id adds to the total: the price of the first seat in
      row-major order with that id, or nothing when no seat has it. */
  function PriceOf(g: Grid, id: Str): (p: int)
    ensures forall k ::
      (0 <= k < |Flatten(g)| && Flatten(g)[k].id == id && forall j :: 0 <= j < k ==> Flatten(g)[j].id != id)
        ==> p == Flatten(g)[k].price
    ensures (forall s :: s in Flatten(g) ==> s.id != id) ==> p == 0
    ensures p == 0 || exists s :: s in Flatten(g) && s.id == id && s.price == p
  {
    match FindSeat(Flatten(g), id)
    case Some(s) => s.price
    case None => 0
  }

  /** The total price of a selection list: the prices of its ids, added up
      from the left as the reduce does. */
  function TotalPrice(g: Grid, ids: seq<Str>): (t: int)
    ensures |ids| == 0 ==> t == 0
    ensures (forall s :: s in Flatten(g) ==> 0 <= s.price) ==> 0 <= t
  {
    if |ids| == 0 then 0 else TotalPrice(g, ids[..|ids| - 1]) + PriceOf(g, ids[|ids| - 1])
  }

  /** The total of two lists put together is the sum of their totals. */
  lemma {:induction false} TotalPriceAppend(g: Grid, a: seq<Str>, b: seq<Str>)
    ensures TotalPrice(g, a + b) == TotalPrice(g, a) + TotalPrice(g, b)
    decreases |b|
  {
    if |b| > 0 {
      var n := |b| - 1;
      assert (a + b)[..|a + b| - 1] == a + b[..n];
      TotalPriceAppend(g, a, b[..n]);
    } else {
      assert a + b == a;
    }
  }

  /** With distinct ids every seat of the grid is the one its id finds. */
  lemma PriceOfSeat(g: Grid, k: int)
    requires DistinctIds(Flatten(g))
    requires 0 <= k < |Flatten(g)|
    ensures PriceOf(g, Flatten(g)[k].id) == Flatten(g)[k].price
  {
    var s := Flatten(g);
    assert forall j :: 0 <= j < k ==> s[j].id != s[k].id;
  }

  /** In a grid with distinct ids, an id found at a position is priced at
      that seat's price. */
  lemma PriceAtPosition(g: Grid, r: int, c: int)
    requires DistinctIdsGrid(g)
    requires InGrid(g, r, c)
    ensures PriceOf(g, g[r][c].id) == g[r][c].price
  {
    FlattenDistinct(g);
    FlattenContains(g, r, c);
    var k :| 0 <= k < |Flatten(g)| && Flatten(g)[k] == g[r][c];
    PriceOfSeat(g, k);
  }

  /** The price sum of the picked seats of `s`. */
  function PickedPrice(s: seq<Seat>): int
  {
    if |s| == 0 then 0
    else PickedPrice(s[..|s| - 1]) + (if IsPicked(s[|s| - 1]) then s[|s| - 1].price else 0)
  }

  lemma TotalPriceSnoc(g: Grid, ids: seq<Str>, id: Str)
    ensures TotalPrice(g, ids + [id]) == TotalPrice(g, ids) + PriceOf(g, id)
  {
    assert (ids + [id])[..|ids|] == ids;
  }

  /** One more seat of the prefix adds its price to both sides when picked. */
  lemma PrefixStep(s: seq<Seat>, k: nat)
    requires 0 < k <= |s|
    ensures PickedIds(s[..k]) == PickedIds(s[..k - 1]) + (if IsPicked(s[k - 1]) then [s[k - 1].id] else [])
    ensures PickedPrice(s[..k]) == PickedPrice(s[..k - 1]) + (if IsPicked(s[k - 1]) then s[k - 1].price else 0)
  {
    assert s[..k][..k - 1] == s[..k - 1];
  }

  /** Extending the prefix by one seat adds that seat's price to the total
      of the selection list exactly when the seat is picked. */
  lemma TotalPriceStep(g: Grid, k: nat)
    requires DistinctIds(Flatten(g))
    requires 0 < k <= |Flatten(g)|
    ensures TotalPrice(g, PickedIds(Flatten(g)[..k]))
      == TotalPrice(g, PickedIds(Flatten(g)[..k - 1])) + (if IsPicked(Flatten(g)[k - 1]) then Flatten(g)[k - 1].price else 0)
  {
    var s := Flatten(g);
    var x := s[k - 1];
    PrefixStep(s, k);
    if IsPicked(x) {
      TotalPriceSnoc(g, PickedIds(s[..k - 1]), x.id);
      PriceOfSeat(g, k - 1);
    } else {
      assert PickedIds(s[..k - 1]) + [] == PickedIds(s[..k - 1]);
    }
  }

  lemma {:induction false} TotalOfPickedPrefix(g: Grid, k: nat)
    requires DistinctIds(Flatten(g))
    requires k <= |Flatten(g)|
    ensures TotalPrice(g, PickedIds(Flatten(g)[..k])) == PickedPrice(Flatten(g)[..k])
    decreases k
  {
    if k > 0 {
      TotalOfPickedPrefix(g, k - 1);
      TotalPriceStep(g, k);
      PrefixStep(Flatten(g), k);
    }
  }

  /** In a valid state the total price is the price sum of the picked seats. */
  lemma TotalOfSelection(st: State)
    requires Valid(st)
    ensures TotalPrice(st.grid, st.selection) == PickedPrice(Flatten(st.grid))
  {
    var s := Flatten(st.grid);
    FlattenDistinct(st.grid);
    TotalOfPickedPrefix(st.grid, |s|);
    assert s[..|s|] == s;
  }

  /** The nested search of the reduce callback: scan rows, then seats, and
      stop at the first seat with the id. */
  method ScanPrice(g: Grid, id: Str) returns (price: int)
    ensures price == PriceOf(g, id)
  {
    var r := 0;
    while r < |g|
      invariant 0 <= r <= |g|
      invariant FindSeat(Flatten(g[..r]), id).None?
    {
      var c := 0;
      while c < |g[r]|
        invariant 0 <= c <= |g[r]|
        invariant forall j :: 0 <= j < c ==> g[r][j].id != id
      {
        if g[r][c].id == id {
          FlattenSplit(g, r);
          FindSeatAppend(Flatten(g[..r]) + g[r], Flatten(g[r + 1..]), id);
          FindSeatAppend(Flatten(g[..r]), g[r], id);
          return g[r][c].price;
        }
        c := c + 1;
      }
      assert g[..r + 1] == g[..r] + [g[r]];
      FlattenAppend(g[..r], [g[r]]);
      FlattenSingle(g[r]);
      FindSeatAppend(Flatten(g[..r]), g[r], id);
      r := r + 1;
    }
    assert g[..r] == g;
    return 0;
  }

  /** The reduce over the selection list: start at 0 and add each id's price. */
  method ScanTotal(g: Grid, ids: seq<Str>) returns (total: int)
    ensures total == TotalPrice(g, ids)
  {
    total := 0;
    var k := 0;
    while k < |ids|
      invariant 0 <= k <= |ids|
      invariant total == TotalPrice(g, ids[..k])
    {
      var p := ScanPrice(g, ids[k]);
      assert ids[..k + 1][..k] == ids[..k];
      total := total + p;
      k := k + 1;
    }
    assert ids[..k] == ids;
  }

  /** The party-size labels, smallest first. */
  datatype Vehicle = NoVehicle | Cycle | Bike | Auto | Car | Bus

  function Rank(v: Vehicle): nat
  {
    match v
    case NoVehicle => 0
    case Cycle => 1
    case Bike => 2
    case Auto => 3
    case Car => 4
    case Bus => 5
  }

  /** Whether vehicle `v` fits a party of `count`: each carries up to its
      rank, the bus carries any party, and only an empty or negative count
      needs no vehicle. */
  predicate Carries(v: Vehicle, count: int)
  {
    match v
    case NoVehicle => count <= 0
    case Bus => true
    case _ => 0 < count <= Rank(v)
  }

  /** `getVehicle(count)`: the smallest vehicle that fits the party. */
  function GetVehicle(count: int): (v: Vehicle)
    ensures Carries(v, count)
    ensures forall w :: Carries(w, count) ==> Rank(v) <= Rank(w)
    ensures v == NoVehicle <==> count <= 0
  {
    if count == 1 then Cycle
    else if count == 2 then Bike
    else if count == 3 then Auto
    else if count == 4 then Car
    else if count >= 5 then Bus
    else NoVehicle
  }

  /** A bigger party never gets a smaller vehicle. */
  lemma GetVehicleMonotonic(m: int, n: int)
    requires m <= n
    ensures Rank(GetVehicle(m)) <= Rank(GetVehicle(n))
  {
  }

}

=== FILE: tiers.dfy ===
/** Tier resolution: which price tier a row belongs to. The tier
    configuration is the list of `[key, config]` pairs in the order
    `Object.entries` yields them. */
module Tiers {

  import opened JsString
  import opened Optional
  import opened Seats

  /** One tier: its key, display name, price (`None` when the property is
      absent) and the row indices it covers. */
  datatype TierEntry = TierEntry(key: Str, name: Str, price: Option<int>, rows: seq<int>)

  /** What a tier lookup yields: the tier's key and settings plus its colour. */
  datatype TierInfo = TierInfo(key: Str, name: Str, price: Option<int>, color: Color)

  /** The tier at position `k` with the colour of that position, cycling
      through the palette. */
  function InfoAt(tiers: seq<TierEntry>, k: nat): TierInfo
    requires k < |tiers|
  {
    TierInfo(tiers[k].key, tiers[k].name, tiers[k].price, Palette[k % |Palette|])
  }

  /** The first position at or after `from` whose rows contain `row`. */
  function FirstMatch(tiers: seq<TierEntry>, row: int, from: nat): (k: Option<nat>)
    requires from <= |tiers|
    ensures k.Some? ==>
      && from <= k.value < |tiers|
      && row in tiers[k.value].rows
      && forall j :: from <= j < k.value ==> row !in tiers[j].rows
    ensures k.None? ==> forall j :: from <= j < |tiers| ==> row !in tiers[j].rows
    decreases |tiers| - from
  {
    if from == |tiers| then None
    else if row in tiers[from].rows then Some(from)
    else FirstMatch(tiers, row, from + 1)
  }

  /** `getSeatType(row)`: the first tier, in declaration order, that lists
      `row`, coloured by its position; the first tier with the first colour
      when none lists it; `None` (the lookup throws) when there are no tiers. */
  function GetSeatType(tiers: seq<TierEntry>, row: int): (info: Option<TierInfo>)
    ensures info.None? <==> |tiers| == 0
    ensures forall k ::
      (0 <= k < |tiers| && row in tiers[k].rows && forall j :: 0 <= j < k ==> row !in tiers[j].rows)
        ==> info == Some(InfoAt(tiers, k))
    ensures 0 < |tiers| && (forall k :: 0 <= k < |tiers| ==> row !in tiers[k].rows) ==>
      info == Some(InfoAt(tiers, 0))
  {
    match FirstMatch(tiers, row, 0)
    case Some(k) => Some(InfoAt(tiers, k))
    case None =>
      if |tiers| == 0 then None
      else Some(InfoAt(tiers, 0))
  }

  /** A successful lookup always returns one of the configured tiers, with
      the colour of its position. */
  lemma GetSeatTypeIsConfigured(tiers: seq<TierEntry>, row: int)
    requires 0 < |tiers|
    ensures exists k :: 0 <= k < |tiers| && GetSeatType(tiers, row) == Some(InfoAt(tiers, k))
  {
    match FirstMatch(tiers, row, 0)
    case Some(k) => assert GetSeatType(tiers, row) == Some(InfoAt(tiers, k));
    case None => assert GetSeatType(tiers, row) == Some(InfoAt(tiers, 0));
  }

}
